=== FILE: README.md ===
# Visual: geometry and targeting model

A Dafny model of `Visual`, the abstract base of every screen or image entity in
SikuliX2 (Region, Location, Image, Screen, Match, Window, Pattern, Offset). It
covers the variant tag and its capability predicates, construction with size
clamping, the derived geometry, the lazily cached target and its resolver, the
moves (`translate`, `at`), the relative locations (`offset`, `left`, `right`,
`above`, `below`), `union` and `contains` with java.awt.Rectangle semantics,
the monitor lookup, the textual form and the default margin.

The original mutates an object. Here a Visual is an immutable record:

    Visual(kind, x, y, w, h, remote, target: Option<Loc>, offset: Option<Delta>, lastMatch: Option<Visual>)

Every setter returns the updated record. `getTarget` and `getMatch` may fill a
cache, so they return a `TargetRead(loc, after)`: the point read and the
Visual after the read.

Modules, one per part of the class:

- `Geometry`: points, deltas, and java.awt.Rectangle's `union`, `contains(x, y)` and `contains(x, y, w, h)`.
- `Visuals`: variants, predicates, `init`, geometry getters.
- `Targets`: target cache, offset, `getMatch`, `translate`, `at`.
- `Placement`: relative locations, `getContainingScreenNumber`.
- `Combine`: `union`, `contains`.
- `TextForm`: `toString`, `isJSON`, `fromJson`.
- `Margins`: the default margin.
- `Capture`: the desktop/remote branch of `capture`.
- `Options`: the optional value used for nullable references.

Assumptions about classes that are not part of this model:

- `Location(x, y)` is a LOCATION of size 0 x 0 built by `init` (`Visuals.NewLocation`).
- `Location.offset` and `Location.translate` add component-wise (`Geometry.Moved`).
- An `Offset` is an OFFSET that carries its raw x and y (`Geometry.Delta`).
- `Region(Rectangle)` and `Region(x, y, w, h)` are a REGION built by `init` (`Visuals.NewRegion`).
- A `Match` is a Visual tagged MATCH.
- java.awt.Rectangle behaves as in the JDK. The overflow guards of its `contains` tests only fire on 32-bit wrap-around, so over unbounded integers they reduce to their non-overflow outcome. Its `union` also clamps a width or height that is out of `int` range, computed in `long`, to Integer.MAX_VALUE; that clamp is left out (see `Geometry.Union` below).
- `clazz` has no initialiser, so in the original it can be null: every capability test is then false and `toString` prints `null`. The model always has a variant; the bare `VISUAL` tag stands in for that case, since it also fails every capability test, but it prints `VISUAL` where the original prints `null`.

Java's `w/2` truncates toward zero. `Geometry.Half` models that, so negative offset sizes are handled too.

## Model

| member | source | states |
|---|---|---|
| Visuals.CapabilityClasses | sikulixapi/src/main/java/com/sikulix/core/Visual.java:39-96 | rectangle-like and point-like are disjoint; on screen means REGION, MATCH, SCREEN, WINDOW or LOCATION; IMAGE, PATTERN, OFFSET and VISUAL never are; desktop is the negation of remote |
| Visuals.Init | sikulixapi/src/main/java/com/sikulix/core/Visual.java:284-296 | x and y stored exactly; a LOCATION gets max(w,0) x max(h,0), an OFFSET keeps raw w,h, every other variant max(w,1) x max(h,1); the result is well sized and nothing but the geometry changes |
| Visuals.InitWithOwnGeometry | sikulixapi/src/main/java/com/sikulix/core/Visual.java:284-296 | the clamp is idempotent: re-initialising a well-sized Visual with its own geometry is the identity |
| Visuals.InitRect | sikulixapi/src/main/java/com/sikulix/core/Visual.java:298-300 | takes the rectangle's corner exactly; its size is clamped per variant as init clamps it (max(w,0) x max(h,0) for a LOCATION, raw for an OFFSET, max(w,1) x max(h,1) otherwise) and kept exactly when allowed; variant, remote flag, cache, offset and last match are unchanged |
| Visuals.InitPoint | sikulixapi/src/main/java/com/sikulix/core/Visual.java:302-304 | a point or offset becomes 0 x 0 at the point, any other variant 1 x 1; variant, remote flag, cache, offset and last match are unchanged |
| Visuals.InitFrom | sikulixapi/src/main/java/com/sikulix/core/Visual.java:306-308 | copies the other Visual's corner exactly and its size clamped for this Visual's variant (exact when both have the same variant and the source is well sized); variant, remote flag, cache, offset and last match stay this Visual's own |
| Visuals.GetRectangle | sikulixapi/src/main/java/com/sikulix/core/Visual.java:347-349 | same corner and size; the corner pixel belongs to the rectangle exactly when it is non-empty |
| Visuals.GetCenter | sikulixapi/src/main/java/com/sikulix/core/Visual.java:351-353 | twice the center's distance from the corner is the size, less one for an odd non-negative size and plus one for an odd negative size (Java's truncated w/2), which fixes the center; it lies between the edges, a sizeless Visual is its own center, and a well-sized rectangle-like Visual contains it |
| Visuals.CenterIsMidpoint | sikulixapi/src/main/java/com/sikulix/core/Visual.java:351-353 | for a non-negative size the center is the midpoint of the corner and the far edge, rounded down |
| Visuals.GetPoint | sikulixapi/src/main/java/com/sikulix/core/Visual.java:355-360 | a point, and any sizeless Visual, is referred to by its corner; every other Visual by its center, which lies inside a well-sized rectangle-like one |
| Visuals.GetSize | sikulixapi/src/main/java/com/sikulix/core/Visual.java:112-114 | zero for a sizeless Visual, at least each side for a well-sized rectangle-like one, never negative for a well-sized point |
| Visuals.SizeGrowsWithCover | sikulixapi/src/main/java/com/sikulix/core/Visual.java:112-114 | a Visual whose rectangle spans another's (of non-negative size) has at least the other's size |
| Visuals.SizeGrowsByLine | sikulixapi/src/main/java/com/sikulix/core/Visual.java:112-114 | one more column adds h to the size and one more row adds w |
| Visuals.SizeCountsPixels | sikulixapi/src/main/java/com/sikulix/core/Visual.java:112-114 | for a non-negative width the size equals the rectangle's pixels counted column by column, w columns of h each |
| Visuals.RegionKeepsSize | sikulixapi/src/main/java/com/sikulix/core/Visual.java:112-114 | getRegion of a Visual at least 1 x 1 has the same size as the Visual |
| Visuals.GetRegion | sikulixapi/src/main/java/com/sikulix/core/Visual.java:343-345 | a fresh REGION with nothing cached whose rectangle is (x, y, max(w, 1), max(h, 1)), so a Location gives a 1 x 1 region at its point; it spans the Visual, and equals its rectangle when the Visual is a well-sized rectangle |
| Geometry.Half | sikulixapi/src/main/java/com/sikulix/core/Visual.java:352 | Java int halving: the remainder has the sign of the dividend and magnitude at most 1 |
| Geometry.HalfTwice | sikulixapi/src/main/java/com/sikulix/core/Visual.java:352 | doubling a truncated half gives an even number back, and an odd one less one (non-negative) or plus one (negative) |
| Geometry.ContainsPoint | sikulixapi/src/main/java/com/sikulix/core/Visual.java:480 | Rectangle.contains(x, y) holds iff the size is non-negative and x <= px < x+w and y <= py < y+h |
| Geometry.ContainsRect | sikulixapi/src/main/java/com/sikulix/core/Visual.java:575 | Rectangle.contains(x, y, w, h) holds iff all sizes are non-negative, the inner one is non-empty and it sticks out of no side |
| Geometry.ContainsRectByCorners | sikulixapi/src/main/java/com/sikulix/core/Visual.java:575-578 | a rectangle contains another iff that one is non-empty and its first and last pixels are contained |
| Geometry.ContainsRectHoldsItsPoints | sikulixapi/src/main/java/com/sikulix/core/Visual.java:575-578 | rectangle containment implies containment of every point of the inner rectangle |
| Geometry.Union | sikulixapi/src/main/java/com/sikulix/core/Visual.java:559-562 | a rectangle with a negative side yields the other one; otherwise the result has no negative side and covers both |
| Geometry.UnionIsTight | sikulixapi/src/main/java/com/sikulix/core/Visual.java:559-562 | any rectangle covering both inputs covers their union |
| Geometry.UnionCommutes | sikulixapi/src/main/java/com/sikulix/core/Visual.java:559-562 | Rectangle union is commutative unless both inputs have a negative side |
| Targets.GetTarget | sikulixapi/src/main/java/com/sikulix/core/Visual.java:215-223 | a cache hit returns the cache and changes nothing; a miss caches the center and returns it, shifted by the offset if one is set; only the cache ever changes |
| Targets.GetTargetSettles | sikulixapi/src/main/java/com/sikulix/core/Visual.java:215-223 | after one getTarget, a second returns the cached value and changes nothing |
| Targets.GetTargetTwice | sikulixapi/src/main/java/com/sikulix/core/Visual.java:215-223 | with no offset, or with a cache, two consecutive calls agree; with an offset and no cache, they differ by exactly the offset |
| Targets.SetTarget | sikulixapi/src/main/java/com/sikulix/core/Visual.java:201-208 | an OFFSET argument caches the center shifted by it; any other variant caches its top-left corner; nothing else changes |
| Targets.SetTargetAt | sikulixapi/src/main/java/com/sikulix/core/Visual.java:210-213 | caches exactly (x, y) and changes nothing else |
| Targets.SetTargetThenGetTarget | sikulixapi/src/main/java/com/sikulix/core/Visual.java:201-223 | getTarget after setTarget returns the set point, even with an offset set, and changes nothing |
| Targets.SetTargetAtThenGetTarget | sikulixapi/src/main/java/com/sikulix/core/Visual.java:210-223 | getTarget after setTarget(x, y) returns (x, y), and after a translation returns (x+dx, y+dy) |
| Targets.SetTargetOffsetExample | sikulixapi/src/main/java/com/sikulix/core/Visual.java:201-205 | Location(5, 5) targeted by Offset(3, -2) caches (8, 3) |
| Targets.SetOffset | sikulixapi/src/main/java/com/sikulix/core/Visual.java:191-193 | sets or clears the offset and changes nothing else |
| Targets.SetOffsetXY | sikulixapi/src/main/java/com/sikulix/core/Visual.java:195-197 | sets the offset to (dx, dy) and changes nothing else |
| Targets.OffsetAppliesOnlyUncached | sikulixapi/src/main/java/com/sikulix/core/Visual.java:191-223 | with a target cached, setting an offset does not change getTarget's answer; without one, getTarget answers the center moved by the offset |
| Targets.GetMatch | sikulixapi/src/main/java/com/sikulix/core/Visual.java:150-155 | with a last match, returns that match's target and updates only the match's cache; without one, it is getTarget |
| Targets.GetMatchIgnoresOwnPosition | sikulixapi/src/main/java/com/sikulix/core/Visual.java:150-155 | with a last match, moving the Visual does not change what getMatch returns |
| Targets.Translate | sikulixapi/src/main/java/com/sikulix/core/Visual.java:370-376 | the corner moves by the delta; size, variant, offset and last match stay; a cache stays present or absent, and the target's position relative to the corner is unchanged |
| Targets.TranslateBy | sikulixapi/src/main/java/com/sikulix/core/Visual.java:378-380 | moves the corner by the Offset; size, variant, remote flag, offset and last match stay; a cache stays present or absent and keeps its position relative to the corner |
| Targets.GeometryFollowsTranslate | sikulixapi/src/main/java/com/sikulix/core/Visual.java:347-376 | after translate(dx, dy) the rectangle, the center and the reference point are the old ones moved by (dx, dy), and the size is unchanged |
| Targets.TranslateUndo | sikulixapi/src/main/java/com/sikulix/core/Visual.java:370-376 | translate(-dx, -dy) after translate(dx, dy) restores the original Visual |
| Targets.TranslateCompose | sikulixapi/src/main/java/com/sikulix/core/Visual.java:370-376 | two translations are one translation by the summed delta |
| Targets.TranslateCommutesWithGetTarget | sikulixapi/src/main/java/com/sikulix/core/Visual.java:215-223 | resolving after translating gives the earlier answer moved by the delta, and the resulting states agree |
| Targets.At | sikulixapi/src/main/java/com/sikulix/core/Visual.java:362-368 | the corner is set to (x, y); everything else, the cached target included, stays as it was |
| Targets.AtLeavesCacheBehind | sikulixapi/src/main/java/com/sikulix/core/Visual.java:362-368 | moving a Visual at (0, 0) with target (5, 5) to (10, 10) leaves the target at (5, 5), which breaks its position relative to the corner |
| Targets.AtKeepsSize | sikulixapi/src/main/java/com/sikulix/core/Visual.java:362-368 | neither form of at changes the size; the corrected one moves the center by the same delta as the corner |
| Targets.AtIntended | sikulixapi/src/main/java/com/sikulix/core/Visual.java:362-368 | corrected at: the corner is set to (x, y) and a cached target keeps its position relative to the corner |
| Targets.AtAgreesWhenNothingToCarry | sikulixapi/src/main/java/com/sikulix/core/Visual.java:362-368 | as-written and corrected at agree iff nothing is cached or the Visual does not move |
| Placement.OffsetBy | sikulixapi/src/main/java/com/sikulix/core/Visual.java:389-394 | a rectangle is offset from its center; a point yields the offset itself, ignoring its own position |
| Placement.OffsetXY | sikulixapi/src/main/java/com/sikulix/core/Visual.java:404-409 | the reference point (getPoint) moved by (dx, dy) |
| Placement.OffsetFormsCompared | sikulixapi/src/main/java/com/sikulix/core/Visual.java:389-409 | the two offset forms agree except on points, where offset(Offset) answers as if the point were at (0, 0) and does not depend on its position |
| Placement.Left | sikulixapi/src/main/java/com/sikulix/core/Visual.java:419-424 | left(dx) is (x - dx, y) for every Visual: the corner shifted left, at the top row |
| Placement.Right | sikulixapi/src/main/java/com/sikulix/core/Visual.java:434-439 | right(dx) stays on the top row; a point moves dx right; a rectangle lands dx past its right edge for an even width, one pixel short of it for an odd non-negative width, one pixel past it for an odd negative width |
| Placement.Above | sikulixapi/src/main/java/com/sikulix/core/Visual.java:449-454 | above(dy) stays on the top row; a point moves dy to the LEFT; a rectangle lands half its width minus half its height right of left(dy), so a square lands exactly on left(dy) |
| Placement.Below | sikulixapi/src/main/java/com/sikulix/core/Visual.java:464-469 | below(dy) stays on the top row; a point moves dy to the LEFT; a rectangle lands half its width minus half its height right of left(dy), so a square lands exactly on left(dy) |
| Placement.AboveIsBelow | sikulixapi/src/main/java/com/sikulix/core/Visual.java:449-469 | above and below return the same location for every Visual and distance |
| Placement.DirectionExamples | sikulixapi/src/main/java/com/sikulix/core/Visual.java:419-469 | on Region(0, 0, 100, 50), left(10) = (-10, 0) and right(10) = (110, 0), against (-10, 25) and (110, 25) as documented; on Location(5, 5), above(3) = below(3) = (2, 5), against (5, 2) and (5, 8) |
| Placement.LeftIntended | sikulixapi/src/main/java/com/sikulix/core/Visual.java:411-424 | corrected left: dx left of the left edge, on the reference point's row |
| Placement.RightIntended | sikulixapi/src/main/java/com/sikulix/core/Visual.java:426-439 | corrected right: the column the code computes, on the reference point's row |
| Placement.AboveIntended | sikulixapi/src/main/java/com/sikulix/core/Visual.java:441-454 | corrected above: dy above the top edge, in the reference point's column |
| Placement.BelowIntended | sikulixapi/src/main/java/com/sikulix/core/Visual.java:456-469 | corrected below: in the reference point's column; a point moves dy down; a rectangle lands dy below its bottom edge for an even height, one pixel short for an odd non-negative height, one pixel past for an odd negative height |
| Placement.IntendedDirectionsAreAxisAligned | sikulixapi/src/main/java/com/sikulix/core/Visual.java:411-469 | each corrected helper moves along one axis from the reference point, and for a point the opposite directions mirror each other |
| Placement.GetContainingScreenNumber | sikulixapi/src/main/java/com/sikulix/core/Visual.java:476-485 | returns the index of the first monitor whose rectangle holds the corner, and -1 iff none does |
| Combine.Union | sikulixapi/src/main/java/com/sikulix/core/Visual.java:559-563 | always a fresh well-sized REGION; for non-negative sizes it covers both Visuals |
| Combine.UnionIsBoundingBox | sikulixapi/src/main/java/com/sikulix/core/Visual.java:559-563 | for non-negative sizes, whenever the Rectangle union is at least 1 x 1 (so the Region clamp does not apply, two Locations that differ in both coordinates included) any rectangle covering both inputs covers the union, so the union is the tight bounding box |
| Combine.UnionOfTwoLocations | sikulixapi/src/main/java/com/sikulix/core/Visual.java:559-563 | the union of Location(0, 0) and Location(5, 5) is the 5 x 5 region at the origin |
| Combine.UnionRectangle | sikulixapi/src/main/java/com/sikulix/core/Visual.java:559-563 | the union's rectangle is the Rectangle union clamped to at least 1 x 1 by the new Region, in every case, negative sides included |
| Combine.UnionClampExample | sikulixapi/src/main/java/com/sikulix/core/Visual.java:559-563 | Location(0, 0) with Location(5, 0) gives the region (0, 0, 5, 1): the 5 x 0 Rectangle union widened by the clamp |
| Combine.UnionSkipsUninitialised | sikulixapi/src/main/java/com/sikulix/core/Visual.java:559-563 | a Region never initialised (-1 x -1) contributes nothing: its union with Region(3, 4, 10, 20) is (3, 4, 10, 20) |
| Combine.UnionCommutative | sikulixapi/src/main/java/com/sikulix/core/Visual.java:559-563 | union(a, b) == union(b, a) unless both have a negative side |
| Combine.Contains | sikulixapi/src/main/java/com/sikulix/core/Visual.java:565-581 | false unless the receiver is rectangle-like and the argument is rectangle- or point-like; a point is in iff x <= px < x+w and y <= py < y+h; a rectangle is in iff it is non-empty and inside the receiver's box |
| Combine.UnionContainsBoth | sikulixapi/src/main/java/com/sikulix/core/Visual.java:559-581 | the union of two well-sized rectangle-like Visuals contains each of them |
| Combine.ContainsOwnGeometry | sikulixapi/src/main/java/com/sikulix/core/Visual.java:565-581 | a well-sized rectangle contains itself and its center, and contains a Location iff its rectangle holds the point |
| TextForm.NatText | sikulixapi/src/main/java/com/sikulix/core/Visual.java:313 | `%d` of a natural number is a non-empty string of digits with no leading zero: only zero itself starts with `0` |
| TextForm.IntText | sikulixapi/src/main/java/com/sikulix/core/Visual.java:313 | `%d` of an integer starts with a minus sign exactly when it is negative, never prints `-0` or a leading zero after the sign, and starts with `0` only for zero |
| TextForm.NatTextValue | sikulixapi/src/main/java/com/sikulix/core/Visual.java:313 | the digits `%d` prints denote the number printed |
| TextForm.ReadIntText | sikulixapi/src/main/java/com/sikulix/core/Visual.java:313-315 | reading back a printed integer followed by a non-digit gives the integer and the rest |
| TextForm.Render | sikulixapi/src/main/java/com/sikulix/core/Visual.java:311-320 | the text always starts with `["` |
| TextForm.RenderRegionExample | sikulixapi/src/main/java/com/sikulix/core/Visual.java:315 | Region(10, 20, 30, 40) prints `["REGION", [10, 20, 30, 40]]` |
| TextForm.DecodeRender | sikulixapi/src/main/java/com/sikulix/core/Visual.java:311-320 | the text reads back as the variant and corner, plus the size for every variant except LOCATION and OFFSET |
| TextForm.RenderDeterminesFields | sikulixapi/src/main/java/com/sikulix/core/Visual.java:311-320 | two Visuals with the same text agree on variant and corner, and on size in the long form |
| TextForm.IsJson | sikulixapi/src/main/java/com/sikulix/core/Visual.java:328-333 | true exactly for a String whose first two characters are `[` and `"` |
| TextForm.FromJson | sikulixapi/src/main/java/com/sikulix/core/Visual.java:335-339 | returns anything that is not in the textual form unchanged, and null for the textual form |
| TextForm.RenderIsJson | sikulixapi/src/main/java/com/sikulix/core/Visual.java:311-339 | every rendered Visual satisfies isJSON, and fromJson turns it into null |
| Margins.GetMargin | sikulixapi/src/main/java/com/sikulix/core/Visual.java:121-123 | a two-element array, width first |
| Margins.SetMargin | sikulixapi/src/main/java/com/sikulix/core/Visual.java:125-132 | each component takes the new value only when it is positive, so positive margins stay positive |
| Margins.SetMarginBoth | sikulixapi/src/main/java/com/sikulix/core/Visual.java:134-136 | a positive value sets both components; a non-positive one changes nothing |
| Margins.SetMarginIdempotent | sikulixapi/src/main/java/com/sikulix/core/Visual.java:125-132 | repeating an update changes nothing more |
| Margins.MarginsStayPositive | sikulixapi/src/main/java/com/sikulix/core/Visual.java:118-136 | after any run of updates from positive margins, getMargin reports two positive values |
| Margins.DefaultMarginsStayPositive | sikulixapi/src/main/java/com/sikulix/core/Visual.java:118-136 | starting from the default 50 x 50, the margins stay positive |
| Capture.CaptureVisual | sikulixapi/src/main/java/com/sikulix/core/Visual.java:507-516 | a desktop Visual with a non-empty rectangle grabs exactly that rectangle and wraps it as an Image; with a width or height of at most 0 the Robot's IllegalArgumentException is the outcome; a remote one terminates with code 1 |
| Capture.CaptureSucceedsIffNonEmpty | sikulixapi/src/main/java/com/sikulix/core/Visual.java:507-516 | a capture yields pixels iff the Visual is on the desktop and its rectangle is non-empty |
| Capture.LocationCaptureRejected | sikulixapi/src/main/java/com/sikulix/core/Visual.java:507-516 | capturing any Location (0 x 0) is rejected |
| Capture.CaptureUsesGrabOnlyOnDesktop | sikulixapi/src/main/java/com/sikulix/core/Visual.java:507-516 | a remote capture does not depend on the grabber, and a desktop capture depends on it only through its rectangle |

## Left out

- The static OpenCV native load and the logger (Visual.java:30-36): native and foreign calls.
- `makeMat` (Visual.java:255-280): an OpenCV pixel conversion over native buffers.
- `show`, `getBufferedImage`, `getImageBytes` (Visual.java:518-555): AWT and OpenCV image encoding and decoding.
- `capture` (Visual.java:507-516): the screen grab is a parameter `grab`. The remote branch's process termination is modelled as a `Terminated` result, and the IllegalArgumentException that `Robot.createScreenCapture` throws for a rectangle without pixels as a `Rejected` result. Other failures of the grab (a headless environment, a denied read permission) are not modelled.
- `getColor` / `getScreenColor` (Visual.java:493-502): a stub that returns null.
- `wait`, `waitVanish`, `write`, `paste`, `stopObserver` (Visual.java:585-629): placeholder bodies and a timed pause.
- `score`, `image` and `content` (Visual.java:227-250): a double, an Image reference and a native buffer. Nothing in the core reads them.
- `lastMatches` / `lastCapture` getters and setters (Visual.java:159-180), and the `getLastMatch` / `setLastMatch` / `getOffset` accessors: plain field access.
- The `FindType` enum (Visual.java:183-185): declared, never used in this class.
- Object identity and aliasing. In Java, getTarget returns the cached Location object itself, so a caller can mutate the cache through it. Values here cannot alias.
- `isValid`: the hook variants override is not modelled. Only the base answer (always true) is.
- `toStringPlus` is modelled as the base class's empty suffix. The overrides in subclasses are not part of this model.
- Visuals.GetSize: does not model the 32-bit `int` wrap-around of `w * h`, which is computed before widening to `long`. Sizes are unbounded.
- Targets.Translate: does not model 32-bit wrap-around of `x + xoff`. Coordinates are unbounded.
- 32-bit wrap-around is not modelled anywhere: every `int` sum in the class, such as getCenter's `x + w/2`, the `x ± d` of offset, left, right, above and below, and the center plus offset of setTarget and getTarget, is computed over unbounded integers.
- TextForm.NatText: prints ASCII digits. `String.format` without a Locale uses the default locale's zero digit, so under a locale with other digits (Thai digits under th_TH_TH, for example) the original prints those instead.
- TextForm.IntText: prints an ASCII minus sign and ASCII digits, for the same reason as NatText; the default locale's digits are not modelled.
- TextForm.Render: its own contract only fixes the opening `["`. The layout of the text is stated by TextForm.DecodeRender and TextForm.RenderRegionExample.
- Geometry.Union: does not model the clamp of an over-wide union to Integer.MAX_VALUE. Integers are unbounded, so the clamp cannot be reached.
- Geometry.ContainsRect: does not model the overflow cases of the AWT test. They cannot arise over unbounded integers.
- `getContainingScreenNumber` reads the monitor count and bounds from the runtime. Here they are the `monitors` parameter.
- `fromJson` is a stub in the original, so there is no parse-back to model. `TextForm.Decode` is an independent reader for the printed format. It shows the text determines the printed fields, and it is not a model of `fromJson`.

## Findings

| source | as written | input that shows it | evidently intended | confidence | as-written member | corrected member |
|---|---|---|---|---|---|---|
| sikulixapi/src/main/java/com/sikulix/core/Visual.java:362-368 | `at` assigns `this.x = x` before computing `x - this.x`, so a cached target is moved by (0, 0) | Visual at (0, 0) with cached target (5, 5), `at(10, 10)`: target stays (5, 5) | move the cached target by the same delta as the Visual, like `translate` | high (not executed) | Targets.AtLeavesCacheBehind | Targets.AtIntended |
| sikulixapi/src/main/java/com/sikulix/core/Visual.java:449-454 | `above` shifts x by `-(h/2) - dy` and keeps the top y | Location(5, 5).above(3) = (2, 5) | (5, 2): dy above, same column | high (not executed) | Placement.DirectionExamples | Placement.AboveIntended |
| sikulixapi/src/main/java/com/sikulix/core/Visual.java:464-469 | `below` has the body of `above` | Location(5, 5).below(3) = (2, 5) | (5, 8): dy below, same column | high (not executed) | Placement.AboveIsBelow | Placement.BelowIntended |
| sikulixapi/src/main/java/com/sikulix/core/Visual.java:419-424 | `left` of a rectangle uses the top y, not the middle of the left side | Region(0, 0, 100, 50).left(10) = (-10, 0) | (-10, 25) | medium (not executed) | Placement.DirectionExamples | Placement.LeftIntended |
| sikulixapi/src/main/java/com/sikulix/core/Visual.java:434-439 | `right` of a rectangle uses the top y, not the middle of the right side | Region(0, 0, 100, 50).right(10) = (110, 0) | (110, 25) | medium (not executed) | Placement.DirectionExamples | Placement.RightIntended |

`offset(Offset)` on a point-like Visual returns the offset itself (Visual.java:390-391). It is modelled as written by `Placement.OffsetBy`. It is not listed as a finding, because `Location` is expected to override `offset(Offset)`. That would make this branch unreachable for real Locations.

=== FILE: capture.dfy ===
/** `capture`: the desktop/remote decision, with the screen grab itself (a
    java.awt.Robot call) passed in as a function of the rectangle. */
module Capture {
  import opened Geometry
  import opened Visuals

  /** The outcome: an Image wrapping the grabbed pixels, the
      IllegalArgumentException that java.awt.Robot raises for a rectangle
      with no pixels, or the process terminated with exit code 1 and a
      message. */
  datatype Captured<Pixels> =
    | ImageOf(pixels: Pixels)
    | Rejected(exception: string)
    | Terminated(code: int, message: string)

  /** capture: a desktop Visual grabs exactly its own rectangle, which the
      grabber refuses when the width or the height is not positive; a remote
      one terminates with "capture: remote not implemented". */
  function CaptureVisual<Pixels>(v: Visual, grab: Rect -> Pixels): (r: Captured<Pixels>)
    ensures IsDesktop(v) && v.w > 0 && v.h > 0 ==> r == ImageOf(grab(Rect(v.x, v.y, v.w, v.h)))
    ensures IsDesktop(v) && (v.w <= 0 || v.h <= 0) ==> r.Rejected?
    ensures IsRemote(v) ==> r.Terminated? && r.code == 1
  {
    if IsRemote(v) then Terminated(1, "capture: remote not implemented")
    else if GetRectangle(v).w <= 0 || GetRectangle(v).h <= 0 then
      Rejected("IllegalArgumentException: Rectangle width and height must be > 0")
    else ImageOf(grab(GetRectangle(v)))
  }

  /** A capture yields pixels exactly when the Visual is on the desktop and
      its rectangle holds its own corner pixel, i.e. is not empty. */
  lemma CaptureSucceedsIffNonEmpty<Pixels>(v: Visual, grab: Rect -> Pixels)
    ensures CaptureVisual(v, grab).ImageOf? <==>
              IsDesktop(v) && ContainsPoint(GetRectangle(v), v.x, v.y)
  {
  }

  /** No LOCATION can be captured: its size is 0 x 0 once initialised. */
  lemma LocationCaptureRejected<Pixels>(p: Loc, grab: Rect -> Pixels)
    ensures CaptureVisual(NewLocation(p), grab).Rejected?
  {
  }

  /** A remote capture never consults the grabber; a desktop capture depends
      on it only through the Visual's rectangle. */
  lemma CaptureUsesGrabOnlyOnDesktop<Pixels>(v: Visual, g1: Rect -> Pixels, g2: Rect -> Pixels)
    ensures IsRemote(v) ==> CaptureVisual(v, g1) == CaptureVisual(v, g2)
    ensures IsDesktop(v) && g1(GetRectangle(v)) == g2(GetRectangle(v)) ==>
              CaptureVisual(v, g1) == CaptureVisual(v, g2)
  {
  }
}

=== FILE: combine.dfy ===
/** Combining two Visuals with java.awt.Rectangle semantics: `union` and
    `contains`. */
module Combine {
  import opened Geometry
  import opened Visuals

  /** union: a REGION built from the Rectangle union of both Visuals'
      rectangles, whatever their variants. For sizes that are not negative it
      spans both Visuals; the clamp to 1 x 1 of a new Region only matters when
      both are sizeless. */
  function Union(a: Visual, b: Visual): (r: Visual)
    ensures IsRegion(r) && WellSized(r)
    ensures r.target.None? && r.offset.None? && r.lastMatch.None?
    ensures a.w >= 0 && a.h >= 0 && b.w >= 0 && b.h >= 0 ==>
              Covers(GetRectangle(r), GetRectangle(a)) && Covers(GetRectangle(r), GetRectangle(b))
  {
    NewRegion(Geometry.Union(GetRectangle(a), GetRectangle(b)))
  }

  /** The union is the tight bounding box: any rectangle spanning both
      Visuals spans the union, whenever the Rectangle union is at least
      1 x 1 so that the new Region needs no clamp (two Locations that differ
      in both coordinates included). */
  lemma UnionIsBoundingBox(a: Visual, b: Visual, c: Rect)
    requires a.w >= 0 && a.h >= 0 && b.w >= 0 && b.h >= 0
    requires Geometry.Union(GetRectangle(a), GetRectangle(b)).w >= 1
    requires Geometry.Union(GetRectangle(a), GetRectangle(b)).h >= 1
    requires Covers(c, GetRectangle(a)) && Covers(c, GetRectangle(b))
    ensures Covers(c, GetRectangle(Union(a, b)))
  {
    UnionIsTight(GetRectangle(a), GetRectangle(b), c);
  }

  /** The region's rectangle is the Rectangle union clamped to at least
      1 x 1 by the new Region: a rectangle with a negative side contributes
      nothing, and a union thinner than one pixel is widened to one. */
  lemma UnionRectangle(a: Visual, b: Visual)
    ensures var u := Geometry.Union(GetRectangle(a), GetRectangle(b));
            GetRectangle(Union(a, b)) == Rect(u.x, u.y, Max(u.w, 1), Max(u.h, 1))
  {
  }

  /** A new Location's rectangle is its point with size 0 x 0. */
  lemma LocationRectangle(p: Loc)
    ensures GetRectangle(NewLocation(p)) == Rect(p.x, p.y, 0, 0)
  {
  }

  /** Worked case: the union of Location(0, 0) and Location(5, 5) is the
      5 x 5 Region at the origin. */
  lemma UnionOfTwoLocations()
    ensures GetRectangle(Union(NewLocation(Loc(0, 0)), NewLocation(Loc(5, 5)))) == Rect(0, 0, 5, 5)
  {
    var a, b := NewLocation(Loc(0, 0)), NewLocation(Loc(5, 5));
    LocationRectangle(Loc(0, 0));
    LocationRectangle(Loc(5, 5));
    UnionRectangle(a, b);
    var u := Geometry.Union(GetRectangle(a), GetRectangle(b));
    assert u == Geometry.Union(Rect(0, 0, 0, 0), Rect(5, 5, 0, 0));
    assert u == Rect(0, 0, 5, 5);
  }

  /** Worked case of the clamp: Location(0, 0) with Location(5, 0) spans no
      row, so the new Region widens it to (0, 0, 5, 1). */
  lemma UnionClampExample()
    ensures GetRectangle(Union(NewLocation(Loc(0, 0)), NewLocation(Loc(5, 0)))) == Rect(0, 0, 5, 1)
  {
    var a, b := NewLocation(Loc(0, 0)), NewLocation(Loc(5, 0));
    LocationRectangle(Loc(0, 0));
    LocationRectangle(Loc(5, 0));
    UnionRectangle(a, b);
    var u := Geometry.Union(GetRectangle(a), GetRectangle(b));
    assert u == Geometry.Union(Rect(0, 0, 0, 0), Rect(5, 0, 0, 0));
    assert u == Rect(0, 0, 5, 0);
  }

  /** Worked case of an uninitialised input: a Region never initialised
      (-1 x -1) contributes nothing to a union. */
  lemma UnionSkipsUninitialised()
    ensures GetRectangle(Union(Fresh(REGION), NewRegion(Rect(3, 4, 10, 20)))) == Rect(3, 4, 10, 20)
  {
    var a, b := Fresh(REGION), NewRegion(Rect(3, 4, 10, 20));
    assert GetRectangle(b) == Rect(3, 4, 10, 20);
    UnionRectangle(a, b);
    var u := Geometry.Union(GetRectangle(a), GetRectangle(b));
    assert u == Rect(3, 4, 10, 20);
  }

  /** union is commutative unless both rectangles have a negative side. */
  lemma UnionCommutative(a: Visual, b: Visual)
    requires !(HasNegativeSize(GetRectangle(a)) && HasNegativeSize(GetRectangle(b)))
    ensures Union(a, b) == Union(b, a)
  {
    Geometry.UnionCommutes(GetRectangle(a), GetRectangle(b));
  }

  /** contains: only a rectangle-like Visual contains anything, and only
      rectangle-like or point-like Visuals can be contained. A rectangle must
      lie inside with no side sticking out (and be non-empty); a point must
      satisfy x <= px < x + w and y <= py < y + h. */
  function Contains(v: Visual, other: Visual): (b: bool)
    ensures !IsRectangle(v) ==> !b
    ensures !IsRectangle(other) && !IsPoint(other) ==> !b
    ensures IsRectangle(v) && IsPoint(other) ==>
              (b <==> (v.w >= 0 && v.h >= 0
                       && v.x <= other.x < v.x + v.w
                       && v.y <= other.y < v.y + v.h))
    ensures IsRectangle(v) && IsRectangle(other) ==>
              (b <==> (v.w >= 0 && v.h >= 0 && other.w > 0 && other.h > 0
                       && Covers(GetRectangle(v), GetRectangle(other))))
  {
    if !IsRectangle(v) then false
    else if !IsRectangle(other) && !IsPoint(other) then false
    else if IsRectangle(other) then ContainsRect(GetRectangle(v), GetRectangle(other))
    else ContainsPoint(GetRectangle(v), other.x, other.y)
  }

  /** The union of two well-sized rectangle-like Visuals contains both. */
  lemma UnionContainsBoth(a: Visual, b: Visual)
    requires IsRectangle(a) && IsRectangle(b) && WellSized(a) && WellSized(b)
    ensures Contains(Union(a, b), a) && Contains(Union(a, b), b)
  {
  }

  /** A well-sized rectangle-like Visual contains itself and its center, and
      the corner of a Location exactly when its rectangle holds the point. */
  lemma ContainsOwnGeometry(v: Visual, px: int, py: int)
    requires IsRectangle(v) && WellSized(v)
    ensures Contains(v, v)
    ensures Contains(v, NewLocation(GetCenter(v)))
    ensures Contains(v, NewLocation(Loc(px, py))) <==> ContainsPoint(GetRectangle(v), px, py)
  {
  }
}

=== FILE: geometry.dfy ===
/** Plane geometry underneath the Visual model: points, displacements and the
    part of java.awt.Rectangle the model calls (union, the two `contains`).
    Integers are unbounded, so the overflow guards of the AWT `contains`
    tests, which only fire on 32-bit wrap-around, collapse to their
    non-overflow outcome, and the clamp of an out-of-range union size is
    never reached. */
module Geometry {

  /** A point: what a Location and a java.awt.Point carry. */
  datatype Loc = Loc(x: int, y: int)

  /** A relative displacement: the raw x and y of an Offset. */
  datatype Delta = Delta(dx: int, dy: int)

  /** A java.awt.Rectangle; width and height may be negative. */
  datatype Rect = Rect(x: int, y: int, w: int, h: int)

  /** Location.offset(Offset) and Location.translate both add component-wise. */
  function Moved(p: Loc, d: Delta): Loc {
    Loc(p.x + d.dx, p.y + d.dy)
  }

  function Min(a: int, b: int): int {
    if a <= b then a else b
  }

  function Max(a: int, b: int): int {
    if a >= b then a else b
  }

  /** Java's `n / 2` on an int: the quotient truncated toward zero (Dafny's
      own `/` is Euclidean and rounds negative odd numbers down instead). */
  function Half(n: int): (r: int)
    ensures n >= 0 ==> 0 <= n - 2 * r <= 1
    ensures n < 0 ==> -1 <= n - 2 * r <= 0
  {
    if n >= 0 then n / 2 else -((-n) / 2)
  }

  /** Doubling a truncated half gives the number back when it is even, and
      misses it by one toward zero when it is odd. */
  lemma HalfTwice(n: int)
    ensures n % 2 == 0 ==> 2 * Half(n) == n
    ensures n % 2 == 1 && n >= 0 ==> 2 * Half(n) == n - 1
    ensures n % 2 == 1 && n < 0 ==> 2 * Half(n) == n + 1
  {
  }

  /** `(w | h) < 0` in the AWT code: some dimension is negative. */
  predicate HasNegativeSize(r: Rect) {
    r.w < 0 || r.h < 0
  }

  /** Box inclusion on extents: `inner` spans no column or row outside `outer`.
      Unlike Rectangle.contains this says nothing about emptiness. */
  predicate Covers(outer: Rect, inner: Rect) {
    && outer.x <= inner.x && inner.x + inner.w <= outer.x + outer.w
    && outer.y <= inner.y && inner.y + inner.h <= outer.y + outer.h
  }

  /** Rectangle.contains(int X, int Y) (its `inside` test): the rectangle is
      half-open, so the top and left edges are in and the bottom and right
      edges are out; a rectangle of zero or negative size holds no point. */
  function ContainsPoint(r: Rect, px: int, py: int): (b: bool)
    ensures b <==> (0 <= r.w && 0 <= r.h
                    && r.x <= px < r.x + r.w
                    && r.y <= py < r.y + r.h)
  {
    if HasNegativeSize(r) then false
    else if px < r.x || py < r.y then false
    else r.x + r.w > px && r.y + r.h > py
  }

  /** Rectangle.contains(int X, int Y, int W, int H) with the inner rectangle
      packed as `q`: a negative dimension anywhere, or an empty `q`, answers
      false; otherwise `q` must not reach past any side of `r`. */
  function ContainsRect(r: Rect, q: Rect): (b: bool)
    ensures b <==> (0 <= r.w && 0 <= r.h && 0 < q.w && 0 < q.h && Covers(r, q))
  {
    if HasNegativeSize(r) || HasNegativeSize(q) then false
    else if q.x < r.x || q.y < r.y then false
    // AWT's `W <= X` branch: with no overflow it means W == 0.
    else if q.x + q.w <= q.x then false
    else if q.x + q.w > r.x + r.w then false
    else if q.y + q.h <= q.y then false
    else q.y + q.h <= r.y + r.h
  }

  /** A rectangle holds another exactly when it holds the other's first and
      last pixel. */
  lemma ContainsRectByCorners(r: Rect, q: Rect)
    ensures ContainsRect(r, q) <==>
              && 0 < q.w && 0 < q.h
              && ContainsPoint(r, q.x, q.y)
              && ContainsPoint(r, q.x + q.w - 1, q.y + q.h - 1)
  {
  }

  /** Containment of rectangles is containment of every point. */
  lemma ContainsRectHoldsItsPoints(r: Rect, q: Rect, px: int, py: int)
    requires ContainsRect(r, q) && ContainsPoint(q, px, py)
    ensures ContainsPoint(r, px, py)
  {
  }

  /** Rectangle.union: a rectangle with a negative dimension does not exist,
      so the other one is the answer (the second argument when both are
      missing); otherwise the smallest rectangle spanning both. */
  function Union(a: Rect, b: Rect): (u: Rect)
    ensures HasNegativeSize(a) ==> u == b
    ensures !HasNegativeSize(a) && HasNegativeSize(b) ==> u == a
    ensures !HasNegativeSize(a) && !HasNegativeSize(b) ==>
              !HasNegativeSize(u) && Covers(u, a) && Covers(u, b)
  {
    if HasNegativeSize(a) then b
    else if HasNegativeSize(b) then a
    else
      var x1 := Min(a.x, b.x);
      var y1 := Min(a.y, b.y);
      var x2 := Max(a.x + a.w, b.x + b.w);
      var y2 := Max(a.y + a.h, b.y + b.h);
      Rect(x1, y1, x2 - x1, y2 - y1)
  }

  /** Nothing smaller than the union spans both rectangles. */
  lemma UnionIsTight(a: Rect, b: Rect, c: Rect)
    requires !HasNegativeSize(a) && !HasNegativeSize(b)
    requires Covers(c, a) && Covers(c, b)
    ensures Covers(c, Union(a, b))
  {
  }

  /** The union does not depend on argument order unless both rectangles are
      missing (then the AWT code returns its argument). */
  lemma UnionCommutes(a: Rect, b: Rect)
    requires !(HasNegativeSize(a) && HasNegativeSize(b))
    ensures Union(a, b) == Union(b, a)
  {
  }
}

=== FILE: margins.dfy ===
/** The default margin (`stdW`, `stdH`), a process-wide pair in the original,
    modelled as an explicit configuration value threaded by the caller. */
module Margins {

  datatype Margin = Margin(stdW: int, stdH: int)

  /** The initial value of the pair. */
  const DefaultMargin := Margin(50, 50)

  /** Both margins are positive: true of the default and kept by every update. */
  predicate Positive(m: Margin) {
    m.stdW > 0 && m.stdH > 0
  }

  /** getMargin: the pair as a two-element array, width first. */
  function GetMargin(m: Margin): (r: seq<int>)
    ensures |r| == 2 && r[0] == m.stdW && r[1] == m.stdH
  {
    [m.stdW, m.stdH]
  }

  /** setMargin(w, h): each component takes the new value only if it is
      positive; a non-positive argument leaves that component alone. */
  function SetMargin(m: Margin, w: int, h: int): (r: Margin)
    ensures r.stdW == (if w > 0 then w else m.stdW)
    ensures r.stdH == (if h > 0 then h else m.stdH)
    ensures Positive(m) ==> Positive(r)
  {
    var m1 := if w > 0 then m.(stdW := w) else m;
    if h > 0 then m1.(stdH := h) else m1
  }

  /** setMargin(wh): both components from one value. */
  function SetMarginBoth(m: Margin, wh: int): (r: Margin)
    ensures wh > 0 ==> r == Margin(wh, wh)
    ensures wh <= 0 ==> r == m
  {
    SetMargin(m, wh, wh)
  }

  /** Repeating an update changes nothing more. */
  lemma SetMarginIdempotent(m: Margin, w: int, h: int)
    ensures SetMargin(SetMargin(m, w, h), w, h) == SetMargin(m, w, h)
  {
  }

  /** A run of updates starting from the default. */
  function ApplyAll(m: Margin, updates: seq<(int, int)>): Margin
    decreases |updates|
  {
    if |updates| == 0 then m
    else ApplyAll(SetMargin(m, updates[0].0, updates[0].1), updates[1..])
  }

  /** Whatever updates a program makes, getMargin never reports a
      non-positive margin. */
  lemma {:induction false} MarginsStayPositive(m: Margin, updates: seq<(int, int)>)
    requires Positive(m)
    ensures Positive(ApplyAll(m, updates))
    ensures GetMargin(ApplyAll(m, updates))[0] > 0 && GetMargin(ApplyAll(m, updates))[1] > 0
    decreases |updates|
  {
    if |updates| > 0 {
      MarginsStayPositive(SetMargin(m, updates[0].0, updates[0].1), updates[1..]);
    }
  }

  /** In particular from the default. */
  lemma DefaultMarginsStayPositive(updates: seq<(int, int)>)
    ensures Positive(ApplyAll(DefaultMargin, updates))
  {
    MarginsStayPositive(DefaultMargin, updates);
  }
}

=== FILE: options.dfy ===
/** The optional value the model uses wherever the original holds a
    reference that may be null (a cached target, an offset, a last match). */
module Options {

  datatype Option<+T> = None | Some(value: T) {

    /** True when there is no value; lets `:-` stop at the first None. */
    predicate IsFailure() {
      None?
    }

    function PropagateFailure<U>(): Option<U>
      requires None?
    {
      None
    }

    function Extract(): T
      requires Some?
    {
      value
    }
  }
}

=== FILE: placement.dfy ===
/** Locations derived from a Visual (`offset`, `left`, `right`, `above`,
    `below`) and the lookup of the monitor holding it. None of these touch
    the target cache. The directional helpers are modelled as written; the
    `...Intended` twins state what their documentation describes. */
module Placement {
  import opened Geometry
  import opened Visuals

  /** offset(Offset) as written: a rectangle is offset from its center, but a
      point-like Visual yields the offset itself, ignoring its own position. */
  function OffsetBy(v: Visual, off: Delta): (p: Loc)
    ensures IsPoint(v) ==> p == Loc(off.dx, off.dy)
    ensures !IsPoint(v) ==> p.x - GetCenter(v).x == off.dx && p.y - GetCenter(v).y == off.dy
  {
    if IsPoint(v) then Loc(off.dx, off.dy) else Moved(GetCenter(v), off)
  }

  /** offset(dx, dy): the reference point (the point itself, or a rectangle's
      center) moved by (dx, dy). */
  function OffsetXY(v: Visual, dx: int, dy: int): (p: Loc)
    ensures p.x - GetPoint(v).x == dx && p.y - GetPoint(v).y == dy
  {
    if IsPoint(v) then Loc(v.x + dx, v.y + dy) else Moved(GetCenter(v), Delta(dx, dy))
  }

  /** The two `offset` forms agree on everything but point-like Visuals, where
      offset(Offset) does not depend on the point at all. */
  lemma OffsetFormsCompared(v: Visual, d: Delta, ax: int, ay: int)
    ensures !IsPoint(v) ==> OffsetBy(v, d) == OffsetXY(v, d.dx, d.dy)
    ensures IsPoint(v) ==> OffsetBy(v, d) == OffsetXY(v.(x := 0, y := 0), d.dx, d.dy)
    ensures IsPoint(v) ==> OffsetBy(v.(x := ax, y := ay), d) == OffsetBy(v, d)
  {
  }

  /** left(dx) as written: the point's or the rectangle's top-left corner
      moved dx to the left (center.x - w/2 is just x), at the TOP y, not the
      middle of the left side. */
  function Left(v: Visual, dx: int): (p: Loc)
    ensures p == Loc(v.x - dx, v.y)
  {
    if IsPoint(v) then Loc(v.x - dx, v.y)
    else Loc(GetCenter(v).x - Half(v.w) - dx, v.y)
  }

  /** right(dx) as written: dx to the right of the right edge, at the top y.
      An odd width puts it one pixel short of that (one pixel past it for a
      negative width), since the two truncated halves add up to one less. */
  function Right(v: Visual, dx: int): (p: Loc)
    ensures p.y == v.y
    ensures IsPoint(v) ==> p.x == v.x + dx
    ensures !IsPoint(v) && v.w % 2 == 0 ==> p.x == v.x + v.w + dx
    ensures !IsPoint(v) && v.w % 2 == 1 && v.w >= 0 ==> p.x == v.x + v.w - 1 + dx
    ensures !IsPoint(v) && v.w % 2 == 1 && v.w < 0 ==> p.x == v.x + v.w + 1 + dx
  {
    HalfTwice(v.w);
    if IsPoint(v) then Loc(v.x + dx, v.y)
    else Loc(GetCenter(v).x + Half(v.w) + dx, v.y)
  }

  /** above(dy) as written: moves along x, never along y. A point moves dy to
      the left; a rectangle goes from its center column back by half its
      HEIGHT and then dy, which for a square is dy left of its left edge. */
  function Above(v: Visual, dy: int): (p: Loc)
    ensures p.y == v.y
    ensures IsPoint(v) ==> p.x == v.x - dy
    ensures !IsPoint(v) ==> p.x == Left(v, dy).x + Half(v.w) - Half(v.h)
    ensures !IsPoint(v) && v.w == v.h ==> p == Left(v, dy)
  {
    if IsPoint(v) then Loc(v.x - dy, v.y)
    else Loc(GetCenter(v).x - Half(v.h) - dy, v.y)
  }

  /** below(dy) as written: the body of above(dy), repeated. */
  function Below(v: Visual, dy: int): (p: Loc)
    ensures p.y == v.y
    ensures IsPoint(v) ==> p.x == v.x - dy
    ensures !IsPoint(v) ==> p.x == Left(v, dy).x + Half(v.w) - Half(v.h)
    ensures !IsPoint(v) && v.w == v.h ==> p == Left(v, dy)
  {
    if IsPoint(v) then Loc(v.x - dy, v.y)
    else Loc(GetCenter(v).x - Half(v.h) - dy, v.y)
  }

  /** As written, above and below cannot be told apart. */
  lemma AboveIsBelow(v: Visual, d: int)
    ensures Above(v, d) == Below(v, d)
  {
  }

  /** The inputs that show the directional helpers' defects: on
      Region(0, 0, 100, 50), left(10) is (-10, 0) instead of the middle of
      the left side (-10, 25); on Location(5, 5), above(3) and below(3) are
      both (2, 5) instead of (5, 2) and (5, 8). */
  lemma DirectionExamples()
    ensures Left(NewRegion(Rect(0, 0, 100, 50)), 10) == Loc(-10, 0)
    ensures LeftIntended(NewRegion(Rect(0, 0, 100, 50)), 10) == Loc(-10, 25)
    ensures Right(NewRegion(Rect(0, 0, 100, 50)), 10) == Loc(110, 0)
    ensures RightIntended(NewRegion(Rect(0, 0, 100, 50)), 10) == Loc(110, 25)
    ensures Above(NewLocation(Loc(5, 5)), 3) == Loc(2, 5)
    ensures Below(NewLocation(Loc(5, 5)), 3) == Loc(2, 5)
    ensures AboveIntended(NewLocation(Loc(5, 5)), 3) == Loc(5, 2)
    ensures BelowIntended(NewLocation(Loc(5, 5)), 3) == Loc(5, 8)
  {
  }

  /** left(dx) as documented: dx to the left of the left edge, level with
      the reference point (a rectangle's middle row). */
  function LeftIntended(v: Visual, dx: int): (p: Loc)
    ensures p == Loc(v.x - dx, GetPoint(v).y)
  {
    if IsPoint(v) then Loc(v.x - dx, v.y)
    else Loc(GetCenter(v).x - Half(v.w) - dx, GetCenter(v).y)
  }

  /** right(dx) as documented: same column as the code computes, level with
      the reference point. */
  function RightIntended(v: Visual, dx: int): (p: Loc)
    ensures p.y == GetPoint(v).y
    ensures p.x == Right(v, dx).x
  {
    if IsPoint(v) then Loc(v.x + dx, v.y)
    else Loc(GetCenter(v).x + Half(v.w) + dx, GetCenter(v).y)
  }

  /** above(dy) as documented: dy above the top edge, in the reference
      point's column. */
  function AboveIntended(v: Visual, dy: int): (p: Loc)
    ensures p == Loc(GetPoint(v).x, v.y - dy)
  {
    if IsPoint(v) then Loc(v.x, v.y - dy)
    else Loc(GetCenter(v).x, GetCenter(v).y - Half(v.h) - dy)
  }

  /** below(dy) as documented: dy below the bottom edge, in the reference
      point's column; an odd height puts it one pixel short of that (one
      pixel past it for a negative height). */
  function BelowIntended(v: Visual, dy: int): (p: Loc)
    ensures p.x == GetPoint(v).x
    ensures IsPoint(v) ==> p.y == v.y + dy
    ensures !IsPoint(v) && v.h % 2 == 0 ==> p.y == v.y + v.h + dy
    ensures !IsPoint(v) && v.h % 2 == 1 && v.h >= 0 ==> p.y == v.y + v.h - 1 + dy
    ensures !IsPoint(v) && v.h % 2 == 1 && v.h < 0 ==> p.y == v.y + v.h + 1 + dy
  {
    HalfTwice(v.h);
    if IsPoint(v) then Loc(v.x, v.y + dy)
    else Loc(GetCenter(v).x, GetCenter(v).y + Half(v.h) + dy)
  }

  /** Each documented helper moves along one axis only, and for a point the
      opposite directions mirror each other. */
  lemma IntendedDirectionsAreAxisAligned(v: Visual, d: int)
    ensures LeftIntended(v, d).y == RightIntended(v, d).y == GetPoint(v).y
    ensures AboveIntended(v, d).x == BelowIntended(v, d).x == GetPoint(v).x
    ensures IsPoint(v) ==> LeftIntended(v, d) == RightIntended(v, -d)
    ensures IsPoint(v) ==> AboveIntended(v, d) == BelowIntended(v, -d)
  {
  }

  /** getContainingScreenNumber over the monitor bounds in enumeration order:
      the first monitor whose rectangle holds the top-left corner, or -1 when
      none does. */
  method GetContainingScreenNumber(v: Visual, monitors: seq<Rect>) returns (n: int)
    ensures -1 <= n < |monitors|
    ensures n >= 0 ==> ContainsPoint(monitors[n], v.x, v.y)
    ensures n >= 0 ==> forall j :: 0 <= j < n ==> !ContainsPoint(monitors[j], v.x, v.y)
    ensures n == -1 <==> forall j :: 0 <= j < |monitors| ==> !ContainsPoint(monitors[j], v.x, v.y)
  {
    var i := 0;
    while i < |monitors|
      invariant 0 <= i <= |monitors|
      invariant forall j :: 0 <= j < i ==> !ContainsPoint(monitors[j], v.x, v.y)
    {
      if ContainsPoint(monitors[i], v.x, v.y) {
        return i;
      }
      i := i + 1;
    }
    return -1;
  }
}

=== FILE: targets.dfy ===
/** The target resolver: the lazily cached target point, the explicit
    setters, the offset, `getMatch`, and the two moves (`translate`, `at`)
    that must keep a cached target in step with the Visual. */
module Targets {
  import opened Options
  import opened Geometry
  import opened Visuals

  /** What a getter that may fill a cache yields: the value read and the
      Visual as it is after the read. */
  datatype TargetRead = TargetRead(loc: Loc, after: Visual)

  /** getTarget. A cached target is returned as is, changing nothing. With no
      cache, the center is cached; the result is the center moved by the
      offset when one is set, the center otherwise. The offset-shifted point
      itself is never cached. */
  function GetTarget(v: Visual): (r: TargetRead)
    ensures r.after.target.Some?
    ensures r.after.(target := v.target) == v
    ensures v.target.Some? ==> r == TargetRead(v.target.value, v)
    ensures v.target.None? ==> r.after.target == Some(GetCenter(v))
    ensures v.target.None? && v.offset.None? ==> r.loc == GetCenter(v)
    ensures v.target.None? && v.offset.Some? ==> r.loc == Moved(GetCenter(v), v.offset.value)
  {
    match v.target
    case Some(t) => TargetRead(t, v)
    case None =>
      var cached := v.(target := Some(GetCenter(v)));
      match v.offset
      case Some(off) => TargetRead(Moved(GetCenter(v), off), cached)
      case None => TargetRead(GetCenter(v), cached)
  }

  /** A second getTarget answers from the cache and changes nothing more. */
  lemma GetTargetSettles(v: Visual)
    ensures GetTarget(GetTarget(v).after).after == GetTarget(v).after
    ensures GetTarget(GetTarget(v).after).loc == GetTarget(v).after.target.value
  {
  }

  /** Without an offset two consecutive getTarget calls return the same
      point; with an offset and no cache the first call differs from the
      second exactly by the offset. */
  lemma GetTargetTwice(v: Visual)
    ensures v.offset.None? || v.target.Some? ==>
              GetTarget(GetTarget(v).after).loc == GetTarget(v).loc
    ensures v.offset.Some? && v.target.None? ==>
              GetTarget(v).loc == Moved(GetTarget(GetTarget(v).after).loc, v.offset.value)
  {
  }

  /** setTarget(Visual): an Offset is taken relative to the center, any other
      Visual as an absolute anchor at its top-left corner (not its center). */
  function SetTarget(v: Visual, anchor: Visual): (r: Visual)
    ensures r.(target := v.target) == v
    ensures IsOffset(anchor) ==>
              r.target == Some(Loc(GetCenter(v).x + anchor.x, GetCenter(v).y + anchor.y))
    ensures !IsOffset(anchor) ==> r.target == Some(Loc(anchor.x, anchor.y))
  {
    if IsOffset(anchor) then
      v.(target := Some(Moved(GetCenter(v), Delta(anchor.x, anchor.y))))
    else
      v.(target := Some(Loc(anchor.x, anchor.y)))
  }

  /** setTarget(x, y): caches exactly (x, y). */
  function SetTargetAt(v: Visual, x: int, y: int): (r: Visual)
    ensures r.(target := v.target) == v
    ensures r.target == Some(Loc(x, y))
  {
    v.(target := Some(Loc(x, y)))
  }

  /** A target set explicitly is what getTarget answers afterwards, whatever
      offset is set: the offset only shifts a target that was not cached. */
  lemma SetTargetThenGetTarget(v: Visual, anchor: Visual)
    ensures GetTarget(SetTarget(v, anchor)).after == SetTarget(v, anchor)
    ensures IsOffset(anchor) ==>
              GetTarget(SetTarget(v, anchor)).loc == Moved(GetCenter(v), Delta(anchor.x, anchor.y))
    ensures !IsOffset(anchor) ==> GetTarget(SetTarget(v, anchor)).loc == Loc(anchor.x, anchor.y)
  {
  }

  /** A target set by coordinates is what getTarget answers, and it follows
      the Visual when the Visual is translated. */
  lemma SetTargetAtThenGetTarget(v: Visual, x: int, y: int, dx: int, dy: int)
    ensures GetTarget(SetTargetAt(v, x, y)).loc == Loc(x, y)
    ensures GetTarget(Translate(SetTargetAt(v, x, y), dx, dy)).loc == Loc(x + dx, y + dy)
  {
  }

  /** Worked case: Location(5, 5) targeted by Offset(3, -2) caches (8, 3). */
  lemma SetTargetOffsetExample()
    ensures SetTarget(NewLocation(Loc(5, 5)), Init(Fresh(OFFSET), 3, -2, 0, 0)).target
            == Some(Loc(8, 3))
  {
  }

  /** setOffset(Offset) and setOffset(null): only the offset changes. */
  function SetOffset(v: Visual, off: Option<Delta>): (r: Visual)
    ensures r.(offset := v.offset) == v
    ensures r.offset == off
  {
    v.(offset := off)
  }

  /** setOffset(xoff, yoff). */
  function SetOffsetXY(v: Visual, dx: int, dy: int): (r: Visual)
    ensures r.(offset := v.offset) == v
    ensures r.offset == Some(Delta(dx, dy))
  {
    SetOffset(v, Some(Delta(dx, dy)))
  }

  /** The offset reaches the target only while nothing is cached: with a
      cache, setting an offset leaves getTarget's answer alone; without one,
      getTarget answers the center moved by the new offset. */
  lemma OffsetAppliesOnlyUncached(v: Visual, d: Delta)
    ensures v.target.Some? ==> GetTarget(SetOffsetXY(v, d.dx, d.dy)).loc == GetTarget(v).loc
    ensures v.target.None? ==> GetTarget(SetOffsetXY(v, d.dx, d.dy)).loc == Moved(GetCenter(v), d)
  {
  }

  /** getMatch: where the last search landed (the last match's target, which
      may fill the match's own cache) if there was one, else this Visual's
      own target. */
  function GetMatch(v: Visual): (r: TargetRead)
    ensures v.lastMatch.Some? ==>
              && r.loc == GetTarget(v.lastMatch.value).loc
              && r.after == v.(lastMatch := Some(GetTarget(v.lastMatch.value).after))
    ensures v.lastMatch.None? ==> r == GetTarget(v)
  {
    match v.lastMatch
    case Some(m) =>
      var read := GetTarget(m);
      TargetRead(read.loc, v.(lastMatch := Some(read.after)))
    case None => GetTarget(v)
  }

  // ----- moving a Visual

  /** Moves a cached target by (dx, dy); an absent cache stays absent. */
  function ShiftCache(t: Option<Loc>, dx: int, dy: int): Option<Loc> {
    match t
    case Some(p) => Some(Moved(p, Delta(dx, dy)))
    case None => None
  }

  /** The target relative to the top-left corner, the quantity `translate`
      keeps: None when nothing is cached. */
  function TargetDelta(v: Visual): Option<Delta> {
    match v.target
    case Some(p) => Some(Delta(p.x - v.x, p.y - v.y))
    case None => None
  }

  /** translate(xoff, yoff): the corner moves by the delta, the size stays,
      and a cached target moves along so that its position relative to the
      Visual is unchanged. */
  function Translate(v: Visual, dx: int, dy: int): (r: Visual)
    ensures r.x == v.x + dx && r.y == v.y + dy
    ensures r.(x := v.x, y := v.y, target := v.target) == v
    ensures r.target.Some? <==> v.target.Some?
    ensures TargetDelta(r) == TargetDelta(v)
  {
    v.(x := v.x + dx, y := v.y + dy, target := ShiftCache(v.target, dx, dy))
  }

  /** translate(Offset): the same move by the Offset's x and y. */
  function TranslateBy(v: Visual, off: Delta): (r: Visual)
    ensures r.x == v.x + off.dx && r.y == v.y + off.dy
    ensures r.(x := v.x, y := v.y, target := v.target) == v
    ensures r.target.Some? <==> v.target.Some?
    ensures TargetDelta(r) == TargetDelta(v)
  {
    Translate(v, off.dx, off.dy)
  }

  /** Translating back by the opposite delta restores the original Visual. */
  lemma TranslateUndo(v: Visual, dx: int, dy: int)
    ensures Translate(Translate(v, dx, dy), -dx, -dy) == v
  {
    match v.target
    case Some(p) =>
    case None =>
  }

  /** Two translations are one translation by the summed delta. */
  lemma TranslateCompose(v: Visual, dx1: int, dy1: int, dx2: int, dy2: int)
    ensures Translate(Translate(v, dx1, dy1), dx2, dy2) == Translate(v, dx1 + dx2, dy1 + dy2)
  {
  }

  /** Translation commutes with target resolution: resolving after moving
      gives the old answer moved, and leaves the Visual the same as moving
      after resolving. */
  lemma TranslateCommutesWithGetTarget(v: Visual, dx: int, dy: int)
    ensures GetTarget(Translate(v, dx, dy)).loc == Moved(GetTarget(v).loc, Delta(dx, dy))
    ensures GetTarget(Translate(v, dx, dy)).after == Translate(GetTarget(v).after, dx, dy)
  {
  }

  /** The derived geometry follows a move: the rectangle, the center and the
      reference point all shift by the delta, and the size does not change. */
  lemma GeometryFollowsTranslate(v: Visual, dx: int, dy: int)
    ensures GetRectangle(Translate(v, dx, dy)) == Rect(v.x + dx, v.y + dy, v.w, v.h)
    ensures GetCenter(Translate(v, dx, dy)) == Moved(GetCenter(v), Delta(dx, dy))
    ensures GetPoint(Translate(v, dx, dy)) == Moved(GetPoint(v), Delta(dx, dy))
    ensures GetSize(Translate(v, dx, dy)) == GetSize(v)
  {
  }

  /** A move never touches the last match, so what getMatch reports for a
      Visual with a last match does not depend on where the Visual is. */
  lemma GetMatchIgnoresOwnPosition(v: Visual, dx: int, dy: int)
    requires v.lastMatch.Some?
    ensures GetMatch(Translate(v, dx, dy)).loc == GetMatch(v).loc
  {
  }

  /** at(x, y) as written: the corner is assigned before the cache shift is
      computed, so the shift is `x - x == 0` and a cached target stays where
      it was. */
  function At(v: Visual, nx: int, ny: int): (r: Visual)
    ensures r.x == nx && r.y == ny
    ensures r.(x := v.x, y := v.y) == v
  {
    var moved := v.(x := nx, y := ny);
    moved.(target := ShiftCache(moved.target, nx - moved.x, ny - moved.y))
  }

  /** The input that shows it: a Visual at (0, 0) with target (5, 5) moved to
      (10, 10) keeps target (5, 5), so the target is no longer 5 pixels
      inside the Visual. */
  lemma AtLeavesCacheBehind()
    ensures var v := Fresh(REGION).(w := 10, h := 10, target := Some(Loc(5, 5)));
            && At(v, 10, 10).target == Some(Loc(5, 5))
            && TargetDelta(At(v, 10, 10)) != TargetDelta(v)
  {
  }

  /** Neither form of `at` changes the size; the corrected one moves the
      center and the reference point with the corner. */
  lemma AtKeepsSize(v: Visual, nx: int, ny: int)
    ensures GetSize(At(v, nx, ny)) == GetSize(v)
    ensures GetSize(AtIntended(v, nx, ny)) == GetSize(v)
    ensures GetCenter(AtIntended(v, nx, ny)) == Moved(GetCenter(v), Delta(nx - v.x, ny - v.y))
  {
  }

  /** at(x, y) as evidently intended: move to (x, y) carrying a cached
      target along, i.e. translate by the difference. */
  function AtIntended(v: Visual, nx: int, ny: int): (r: Visual)
    ensures r.x == nx && r.y == ny
    ensures r.w == v.w && r.h == v.h && r.kind == v.kind && r.offset == v.offset
    ensures TargetDelta(r) == TargetDelta(v)
  {
    Translate(v, nx - v.x, ny - v.y)
  }

  /** The two agree exactly when there is nothing cached to carry along or
      the Visual does not actually move. */
  lemma AtAgreesWhenNothingToCarry(v: Visual, nx: int, ny: int)
    ensures At(v, nx, ny) == AtIntended(v, nx, ny) <==>
              v.target.None? || (nx == v.x && ny == v.y)
  {
    if v.target.Some? && !(nx == v.x && ny == v.y) {
      assert AtIntended(v, nx, ny).target != v.target;
    }
  }
}

=== FILE: textform.dfy ===
/** The textual form of a Visual: `toString`, the `isJSON` recogniser and the
    `fromJson` stub, plus a reader for the produced format that shows the
    text determines the variant and the printed coordinates. */
module TextForm {
  import opened Options
  import opened Visuals

  /** No double quote occurs in s. */
  predicate QuoteFree(s: string) {
    forall i :: 0 <= i < |s| ==> s[i] != '"'
  }

  /** The enum constant's name, which `%s` prints. */
  function KindName(k: Kind): (name: string)
    ensures QuoteFree(name)
  {
    match k
    case VISUAL => "VISUAL"
    case REGION => "REGION"
    case LOCATION => "LOCATION"
    case IMAGE => "IMAGE"
    case SCREEN => "SCREEN"
    case MATCH => "MATCH"
    case WINDOW => "WINDOW"
    case PATTERN => "PATTERN"
    case OFFSET => "OFFSET"
  }

  /** The constant a name denotes, if any. */
  function KindNamed(name: string): (r: Option<Kind>)
    ensures r.Some? ==> KindName(r.value) == name
  {
    if name == "VISUAL" then Some(VISUAL)
    else if name == "REGION" then Some(REGION)
    else if name == "LOCATION" then Some(LOCATION)
    else if name == "IMAGE" then Some(IMAGE)
    else if name == "SCREEN" then Some(SCREEN)
    else if name == "MATCH" then Some(MATCH)
    else if name == "WINDOW" then Some(WINDOW)
    else if name == "PATTERN" then Some(PATTERN)
    else if name == "OFFSET" then Some(OFFSET)
    else None
  }

  lemma KindNamedInverts(k: Kind)
    ensures KindNamed(KindName(k)) == Some(k)
  {
  }

  // ----- decimal integers, as `%d` prints them

  predicate IsDigit(c: char) {
    '0' <= c <= '9'
  }

  predicate AllDigits(s: string) {
    forall i :: 0 <= i < |s| ==> IsDigit(s[i])
  }

  function DigitChar(d: nat): char
    requires d < 10
  {
    (('0' as int) + d) as char
  }

  function DigitValue(c: char): nat
    requires IsDigit(c)
  {
    (c as int) - ('0' as int)
  }

  /** The decimal digits of n, most significant first, without leading
      zeros: only zero itself starts with '0'. */
  function NatText(n: nat): (s: string)
    ensures |s| > 0 && AllDigits(s)
    ensures s[0] == '0' ==> n == 0
  {
    if n < 10 then [DigitChar(n)] else NatText(n / 10) + [DigitChar(n % 10)]
  }

  /** `%d`: a minus sign before the digits of a negative number. */
  function IntText(i: int): (s: string)
    ensures |s| > 0 && (s[0] == '-' || IsDigit(s[0]))
    ensures s[0] == '-' <==> i < 0
    ensures i < 0 ==> |s| >= 2 && s[1] != '0'
    ensures s[0] == '0' ==> i == 0
  {
    if i < 0 then "-" + NatText(-i) else NatText(i)
  }

  /** The number a string of digits denotes. */
  function DigitsValue(s: string): nat
    requires AllDigits(s)
  {
    if |s| == 0 then 0 else 10 * DigitsValue(s[..|s| - 1]) + DigitValue(s[|s| - 1])
  }

  lemma {:induction false} NatTextValue(n: nat)
    ensures DigitsValue(NatText(n)) == n
  {
    if n >= 10 {
      NatTextValue(n / 10);
      var s := NatText(n);
      assert s[..|s| - 1] == NatText(n / 10);
    }
  }

  /** The length of the longest run of digits at the front of s. */
  function DigitRun(s: string): (k: nat)
    ensures k <= |s|
    ensures forall i :: 0 <= i < k ==> IsDigit(s[i])
    ensures k < |s| ==> !IsDigit(s[k])
  {
    if |s| == 0 || !IsDigit(s[0]) then 0 else 1 + DigitRun(s[1..])
  }

  /** Reads an unsigned decimal number from the front of s. */
  function ReadNat(s: string): Option<(nat, string)> {
    var k := DigitRun(s);
    if k == 0 then None else Some((DigitsValue(s[..k]), s[k..]))
  }

  /** Reads an optionally negative decimal number from the front of s. */
  function ReadInt(s: string): Option<(int, string)> {
    if |s| > 0 && s[0] == '-' then Signed(-1, ReadNat(s[1..]))
    else Signed(1, ReadNat(s))
  }

  /** Applies a sign to a number read, passing the rest through. */
  function Signed(sign: int, read: Option<(nat, string)>): Option<(int, string)> {
    match read
    case None => None
    case Some((n, rest)) => Some((sign * n, rest))
  }

  /** Text that cannot continue a number. */
  predicate EndsNumber(rest: string) {
    |rest| == 0 || !IsDigit(rest[0])
  }

  lemma ReadNatText(n: nat, rest: string)
    requires EndsNumber(rest)
    ensures ReadNat(NatText(n) + rest) == Some((n, rest))
  {
    var s := NatText(n) + rest;
    var k := DigitRun(s);
    var ds := NatText(n);
    assert forall i :: 0 <= i < |ds| ==> s[i] == ds[i];
    assert |rest| > 0 ==> s[|ds|] == rest[0];
    assert k == |ds|;
    assert s[..k] == NatText(n);
    assert s[k..] == rest;
    NatTextValue(n);
  }

  /** Reading back what `%d` printed gives the number and the rest. */
  lemma ReadIntText(i: int, rest: string)
    requires EndsNumber(rest)
    ensures ReadInt(IntText(i) + rest) == Some((i, rest))
  {
    if i < 0 {
      var digits := NatText(-i);
      var s := "-" + digits + rest;
      assert IntText(i) + rest == s;
      assert |s| > 0 && s[0] == '-';
      assert s[1..] == digits + rest;
      ReadNatText(-i, rest);
      assert ReadInt(s) == Signed(-1, Some((-i, rest)));
    } else {
      var digits := NatText(i);
      assert IntText(i) == digits;
      assert !(|digits + rest| > 0 && (digits + rest)[0] == '-') by {
        assert (digits + rest)[0] == digits[0];
      }
      ReadNatText(i, rest);
    }
  }

  // ----- the rendered form

  /** toStringPlus: the variant-specific suffix, empty in the base class. */
  function ToStringPlus(v: Visual): string {
    ""
  }

  /** toString: `["<VARIANT>", [x, y]]` for a Location or an Offset,
      `["<VARIANT>", [x, y, w, h]<plus>]` for every other variant. */
  function Render(v: Visual): (s: string)
    ensures |s| >= 2 && s[..2] == "[\""
  {
    "[\"" + KindName(v.kind) + RenderBody(v)
  }

  // The rest of the text, grouped so that each number is followed by what
  // the reader sees after it.

  /** `", [x` and what follows x. */
  function RenderBody(v: Visual): string {
    "\", [" + IntText(v.x) + RenderAfterX(v)
  }

  /** `, y` and what follows the corner. */
  function RenderAfterX(v: Visual): string {
    ", " + IntText(v.y) + RenderTail(v)
  }

  /** What follows the corner: the closing brackets, or the size first. */
  function RenderTail(v: Visual): string {
    if IsLocation(v) || IsOffset(v) then "]]"
    else ", " + IntText(v.w) + RenderAfterW(v)
  }

  /** `, h`, the variant's suffix and the closing brackets. */
  function RenderAfterW(v: Visual): string {
    ", " + IntText(v.h) + ("]" + ToStringPlus(v) + "]")
  }

  /** The arguments `Object` can carry here: null, a String, or anything
      else. */
  datatype Obj = Null | Text(s: string) | Other

  /** isJSON: a String that starts with `["`. */
  function IsJson(o: Obj): (b: bool)
    ensures b <==> o.Text? && |o.s| >= 2 && o.s[0] == '[' && o.s[1] == '"'
  {
    match o
    case Text(s) => |s| >= 2 && s[..2] == "[\""
    case _ => false
  }

  /** fromJson, a stub: anything not in the textual form comes back
      unchanged, and the textual form itself yields null. */
  function FromJson(o: Obj): (r: Obj)
    ensures !IsJson(o) ==> r == o
    ensures IsJson(o) ==> r == Null
  {
    if !IsJson(o) then o else Null
  }

  /** Every rendered Visual is recognised as the textual form, and the stub
      turns it into null rather than a Visual. */
  lemma RenderIsJson(v: Visual)
    ensures IsJson(Text(Render(v)))
    ensures FromJson(Text(Render(v))) == Null
  {
  }

  // ----- reading the rendered form back

  /** What the text carries: a variant and a corner, plus a size in the long
      form. */
  datatype Fields =
    | PointFields(kind: Kind, x: int, y: int)
    | BoxFields(kind: Kind, x: int, y: int, w: int, h: int)

  /** What rendering v prints. */
  function FieldsOf(v: Visual): Fields {
    if IsLocation(v) || IsOffset(v) then PointFields(v.kind, v.x, v.y)
    else BoxFields(v.kind, v.x, v.y, v.w, v.h)
  }

  /** Drops `lit` from the front of s, if s starts with it. */
  function Expect(lit: string, s: string): Option<string> {
    if |lit| <= |s| && s[..|lit|] == lit then Some(s[|lit|..]) else None
  }

  lemma ExpectLiteral(lit: string, rest: string)
    ensures Expect(lit, lit + rest) == Some(rest)
  {
    assert (lit + rest)[..|lit|] == lit;
    assert (lit + rest)[|lit|..] == rest;
  }

  /** The length of the run of characters other than `"` at the front of s. */
  function NameRun(s: string): (k: nat)
    ensures k <= |s|
    ensures forall i :: 0 <= i < k ==> s[i] != '"'
    ensures k < |s| ==> s[k] == '"'
  {
    if |s| == 0 || s[0] == '"' then 0 else 1 + NameRun(s[1..])
  }

  lemma NameRunOfName(name: string, rest: string)
    requires QuoteFree(name)
    requires |rest| > 0 && rest[0] == '"'
    ensures NameRun(name + rest) == |name|
  {
    var s := name + rest;
    assert forall i :: 0 <= i < |name| ==> s[i] == name[i];
    assert s[|name|] == rest[0];
  }

  /** Reads a separator and the number after it. */
  function ReadField(sep: string, s: string): Option<(int, string)> {
    var s1 :- Expect(sep, s);
    ReadInt(s1)
  }

  lemma ReadFieldText(sep: string, i: int, rest: string)
    requires EndsNumber(rest)
    ensures ReadField(sep, sep + IntText(i) + rest) == Some((i, rest))
  {
    assert sep + IntText(i) + rest == sep + (IntText(i) + rest);
    ExpectLiteral(sep, IntText(i) + rest);
    ReadIntText(i, rest);
  }

  /** Reads the tail after the corner: `]]` or `, w, h]]`. */
  function DecodeTail(kind: Kind, x: int, y: int, s: string): Option<Fields> {
    if s == "]]" then Some(PointFields(kind, x, y))
    else
      var (w, s1) :- ReadField(", ", s);
      var (h, s2) :- ReadField(", ", s1);
      if s2 == "]]" then Some(BoxFields(kind, x, y, w, h)) else None
  }

  /** Reads what follows the name: `", [x, y` and the tail. */
  function DecodeBody(kind: Kind, s: string): Option<Fields> {
    var (x, s1) :- ReadField("\", [", s);
    var (y, s2) :- ReadField(", ", s1);
    DecodeTail(kind, x, y, s2)
  }

  /** A reader for the textual form: `["NAME", [x, y]]` or
      `["NAME", [x, y, w, h]]`. */
  function Decode(s: string): Option<Fields> {
    var s1 :- Expect("[\"", s);
    var n := NameRun(s1);
    var kind :- KindNamed(s1[..n]);
    DecodeBody(kind, s1[n..])
  }

  /** The text after the corner reads back as what was printed there. */
  lemma DecodeTailOfRender(v: Visual)
    ensures DecodeTail(v.kind, v.x, v.y, RenderTail(v)) == Some(FieldsOf(v))
  {
    if !(IsLocation(v) || IsOffset(v)) {
      assert "]" + ToStringPlus(v) + "]" == "]]";
      assert RenderTail(v) != "]]" by {
        assert |RenderTail(v)| > 2 && RenderTail(v)[0] == ',';
      }
      ReadFieldText(", ", v.w, RenderAfterW(v));
      ReadFieldText(", ", v.h, "]]");
    }
  }

  lemma DecodeBodyByFields(kind: Kind, s: string, x: int, s1: string, y: int, s2: string)
    requires ReadField("\", [", s) == Some((x, s1))
    requires ReadField(", ", s1) == Some((y, s2))
    ensures DecodeBody(kind, s) == DecodeTail(kind, x, y, s2)
  {
  }

  /** The text after the name reads back as the printed corner and tail. */
  lemma DecodeBodyOfText(kind: Kind, x: int, y: int, tail: string)
    requires EndsNumber(tail)
    ensures DecodeBody(kind, "\", [" + IntText(x) + (", " + IntText(y) + tail))
            == DecodeTail(kind, x, y, tail)
  {
    ReadFieldText("\", [", x, ", " + IntText(y) + tail);
    ReadFieldText(", ", y, tail);
    DecodeBodyByFields(kind, "\", [" + IntText(x) + (", " + IntText(y) + tail),
                       x, ", " + IntText(y) + tail, y, tail);
  }

  lemma Reassociate(a: string, b: string, c: string)
    ensures a + b + c == a + (b + c)
  {
  }

  /** The opening bracket and a variant's name read back as that variant. */
  lemma DecodeHead(k: Kind, rest: string)
    requires |rest| > 0 && rest[0] == '"'
    ensures Decode("[\"" + KindName(k) + rest) == DecodeBody(k, rest)
  {
    var name := KindName(k);
    Reassociate("[\"", name, rest);
    ExpectLiteral("[\"", name + rest);
    NameRunOfName(name, rest);
    assert (name + rest)[..|name|] == name;
    assert (name + rest)[|name|..] == rest;
    KindNamedInverts(k);
  }

  /** Rendering round-trips through the reader: the text determines the
      variant, the corner and, in the long form, the size. */
  lemma DecodeRender(v: Visual)
    ensures Decode(Render(v)) == Some(FieldsOf(v))
  {
    DecodeHead(v.kind, RenderBody(v));
    DecodeBodyOfText(v.kind, v.x, v.y, RenderTail(v));
    DecodeTailOfRender(v);
  }

  /** Two Visuals that print the same text agree on variant, corner and,
      in the long form, size. */
  lemma RenderDeterminesFields(a: Visual, b: Visual)
    requires Render(a) == Render(b)
    ensures FieldsOf(a) == FieldsOf(b)
  {
    DecodeRender(a);
    DecodeRender(b);
  }

  /** `%d` of the numbers in the worked case below. */
  lemma SmallIntTexts()
    ensures IntText(10) == "10" && IntText(20) == "20"
    ensures IntText(30) == "30" && IntText(40) == "40"
  {
    assert NatText(1) == "1" && NatText(2) == "2";
    assert NatText(3) == "3" && NatText(4) == "4";
  }

  /** The pieces of the worked case below, one per lemma to keep each
      proof small. */
  predicate IsExampleBox(v: Visual) {
    v.kind == REGION && v.x == 10 && v.y == 20 && v.w == 30 && v.h == 40
  }

  lemma ExampleTail(v: Visual)
    requires IsExampleBox(v)
    ensures RenderTail(v) == ", 30, 40]]"
  {
    SmallIntTexts();
    assert RenderAfterW(v) == ", 40]]";
  }

  lemma ExampleBody(v: Visual)
    requires IsExampleBox(v)
    ensures RenderBody(v) == "\", [10, 20, 30, 40]]"
  {
    SmallIntTexts();
    ExampleTail(v);
    assert RenderAfterX(v) == ", 20, 30, 40]]";
  }

  lemma ExampleJoin(head: string, body: string)
    requires head == "[\"REGION" && body == "\", [10, 20, 30, 40]]"
    ensures head + body == "[\"REGION\", [10, 20, 30, 40]]"
  {
  }

  lemma ExampleRender(v: Visual)
    requires IsExampleBox(v)
    ensures Render(v) == "[\"REGION\", [10, 20, 30, 40]]"
  {
    ExampleBody(v);
    var head := "[\"" + KindName(v.kind);
    assert head == "[\"REGION";
    ExampleJoin(head, RenderBody(v));
  }

  /** Worked case: Region(10, 20, 30, 40) prints `["REGION", [10, 20, 30, 40]]`. */
  lemma RenderRegionExample()
    ensures Render(NewRegion(Geometry.Rect(10, 20, 30, 40))) == "[\"REGION\", [10, 20, 30, 40]]"
  {
    var v := NewRegion(Geometry.Rect(10, 20, 30, 40));
    assert IsExampleBox(v);
    ExampleRender(v);
  }
}

=== FILE: visuals.dfy ===
/** The Visual entity: one record for every screen or image entity, tagged by
    its variant, with the shared geometry and the target/offset/last-match
    bookkeeping. Operations that the original performs by mutating fields
    return the updated record instead. */
module Visuals {
  import opened Options
  import opened Geometry

  /** The variant tag (`vType`); it never changes after construction. */
  datatype Kind = VISUAL | REGION | LOCATION | IMAGE | SCREEN | MATCH | WINDOW | PATTERN | OFFSET

  /** A Visual. `target` is the lazily cached target Location, `offset` the
      Offset applied on top of an uncached target, `lastMatch` the Match of the
      most recent search rooted here, `remote` the `onRemoteScreen` flag. */
  datatype Visual = Visual(
    kind: Kind,
    x: int, y: int, w: int, h: int,
    remote: bool,
    target: Option<Loc>,
    offset: Option<Delta>,
    lastMatch: Option<Visual>)

  // ----- capability predicates

  predicate IsRegion(v: Visual) { v.kind == REGION }
  predicate IsLocation(v: Visual) { v.kind == LOCATION }
  predicate IsImage(v: Visual) { v.kind == IMAGE }
  predicate IsMatch(v: Visual) { v.kind == MATCH }
  predicate IsPattern(v: Visual) { v.kind == PATTERN }
  predicate IsScreen(v: Visual) { v.kind == SCREEN }
  predicate IsWindow(v: Visual) { v.kind == WINDOW }
  predicate IsOffset(v: Visual) { v.kind == OFFSET }

  predicate IsRectangle(v: Visual) {
    IsRegion(v) || IsMatch(v) || IsScreen(v) || IsWindow(v)
  }

  predicate IsPoint(v: Visual) { IsLocation(v) }

  predicate IsOnScreen(v: Visual) { IsRectangle(v) || IsPoint(v) }

  predicate IsRemote(v: Visual) { v.remote }

  predicate IsDesktop(v: Visual) { !IsRemote(v) }

  /** The base class reports every Visual usable. */
  predicate IsValid(v: Visual) { true }

  /** The variants split into rectangle-like, point-like and the rest (IMAGE,
      PATTERN, OFFSET and the bare VISUAL tag), which are never on screen. */
  lemma CapabilityClasses(v: Visual)
    ensures !(IsRectangle(v) && IsPoint(v))
    ensures IsOnScreen(v) <==> v.kind in {REGION, MATCH, SCREEN, WINDOW, LOCATION}
    ensures !IsOnScreen(v) <==> v.kind in {VISUAL, IMAGE, PATTERN, OFFSET}
    ensures IsDesktop(v) != IsRemote(v)
  {
  }

  // ----- construction

  /** A newly allocated Visual of the given variant before `init`: fields at
      their declared defaults (0, 0, -1, -1), nothing cached, on the desktop. */
  function Fresh(k: Kind): Visual {
    Visual(k, 0, 0, -1, -1, false, None, None, None)
  }

  /** The size rule `init` establishes: point-like variants have no negative
      dimension, offsets are unconstrained, every other variant is at least
      1 x 1. */
  predicate WellSized(v: Visual) {
    if IsPoint(v) then v.w >= 0 && v.h >= 0
    else if IsOffset(v) then true
    else v.w >= 1 && v.h >= 1
  }

  /** init(x, y, w, h): stores x and y as given and clamps the size by variant;
      nothing but the geometry changes. */
  function Init(v: Visual, x: int, y: int, w: int, h: int): (r: Visual)
    ensures r.x == x && r.y == y
    ensures IsPoint(v) ==> r.w == Max(w, 0) && r.h == Max(h, 0)
    ensures IsOffset(v) ==> r.w == w && r.h == h
    ensures !IsPoint(v) && !IsOffset(v) ==> r.w == Max(w, 1) && r.h == Max(h, 1)
    ensures WellSized(r)
    ensures r.(x := v.x, y := v.y, w := v.w, h := v.h) == v
  {
    var r := v.(x := x, y := y, w := w, h := h);
    if IsPoint(v) then
      r.(w := if w < 0 then 0 else w, h := if h < 0 then 0 else h)
    else if !IsOffset(v) then
      r.(w := if w < 1 then 1 else w, h := if h < 1 then 1 else h)
    else r
  }

  /** Initialising a Visual with its own geometry changes nothing once it is
      well sized: the clamp is idempotent. */
  lemma InitWithOwnGeometry(v: Visual)
    requires WellSized(v)
    ensures Init(v, v.x, v.y, v.w, v.h) == v
  {
  }

  /** init(Rectangle): the rectangle's corner exactly, its size clamped as
      `init` clamps it; a size already allowed for the variant is kept, and
      nothing but the geometry changes. */
  function InitRect(v: Visual, r: Rect): (res: Visual)
    ensures res.x == r.x && res.y == r.y && WellSized(res)
    ensures IsPoint(v) ==> res.w == Max(r.w, 0) && res.h == Max(r.h, 0)
    ensures IsOffset(v) ==> res.w == r.w && res.h == r.h
    ensures !IsPoint(v) && !IsOffset(v) ==> res.w == Max(r.w, 1) && res.h == Max(r.h, 1)
    ensures WellSized(v.(w := r.w, h := r.h)) ==> GetRectangle(res) == r
    ensures res.(x := v.x, y := v.y, w := v.w, h := v.h) == v
  {
    Init(v, r.x, r.y, r.w, r.h)
  }

  /** init(Point): a point-like Visual gets size 0 x 0, an offset keeps 0 x 0,
      any other variant becomes 1 x 1 at that point; nothing but the geometry
      changes. */
  function InitPoint(v: Visual, p: Loc): (res: Visual)
    ensures res.x == p.x && res.y == p.y
    ensures (IsPoint(v) || IsOffset(v)) ==> res.w == 0 && res.h == 0
    ensures !IsPoint(v) && !IsOffset(v) ==> res.w == 1 && res.h == 1
    ensures res.(x := v.x, y := v.y, w := v.w, h := v.h) == v
  {
    Init(v, p.x, p.y, 0, 0)
  }

  /** init(Visual): copies the other Visual's corner and its size, re-clamped
      for this variant; variant, remote flag, cache, offset and last match
      stay this Visual's own. When both have the same variant and the source
      is well sized the geometry is copied exactly. */
  function InitFrom(v: Visual, src: Visual): (res: Visual)
    ensures res.x == src.x && res.y == src.y && WellSized(res)
    ensures IsPoint(v) ==> res.w == Max(src.w, 0) && res.h == Max(src.h, 0)
    ensures IsOffset(v) ==> res.w == src.w && res.h == src.h
    ensures !IsPoint(v) && !IsOffset(v) ==> res.w == Max(src.w, 1) && res.h == Max(src.h, 1)
    ensures v.kind == src.kind && WellSized(src) ==> res.w == src.w && res.h == src.h
    ensures res.(x := v.x, y := v.y, w := v.w, h := v.h) == v
  {
    Init(v, src.x, src.y, src.w, src.h)
  }

  /** `new Location(x, y)`: a LOCATION of size 0 x 0. */
  function NewLocation(p: Loc): Visual {
    Init(Fresh(LOCATION), p.x, p.y, 0, 0)
  }

  /** `new Region(Rectangle)` and `new Region(x, y, w, h)`. */
  function NewRegion(r: Rect): Visual {
    Init(Fresh(REGION), r.x, r.y, r.w, r.h)
  }

  // ----- derived geometry

  /** getRectangle: the same corner and size as a java.awt.Rectangle; its
      corner pixel belongs to it exactly when it is not empty. */
  function GetRectangle(v: Visual): (r: Rect)
    ensures r.x == v.x && r.y == v.y && r.w == v.w && r.h == v.h
    ensures ContainsPoint(r, v.x, v.y) <==> v.w > 0 && v.h > 0
  {
    Rect(v.x, v.y, v.w, v.h)
  }

  /** getCenter: the top-left corner moved by half the size, each half
      truncated toward zero as Java's int division does. Twice the distance
      from the corner is the size, or one less (one more for a negative
      size) when the size is odd. A well-sized rectangle-like Visual holds
      its own center; a sizeless one is its own center. */
  function GetCenter(v: Visual): (c: Loc)
    ensures v.w >= 0 ==> 0 <= v.w - 2 * (c.x - v.x) <= 1
    ensures v.w < 0 ==> -1 <= v.w - 2 * (c.x - v.x) <= 0
    ensures v.h >= 0 ==> 0 <= v.h - 2 * (c.y - v.y) <= 1
    ensures v.h < 0 ==> -1 <= v.h - 2 * (c.y - v.y) <= 0
    ensures v.w >= 0 ==> v.x <= c.x <= v.x + v.w
    ensures v.h >= 0 ==> v.y <= c.y <= v.y + v.h
    ensures v.w == 0 && v.h == 0 ==> c == Loc(v.x, v.y)
    ensures WellSized(v) && IsRectangle(v) ==> ContainsPoint(GetRectangle(v), c.x, c.y)
  {
    Loc(v.x + Half(v.w), v.y + Half(v.h))
  }

  /** For a non-negative size the center is the midpoint of the corner and
      the far edge, rounded down. */
  lemma CenterIsMidpoint(v: Visual)
    ensures v.w >= 0 ==> GetCenter(v).x == (v.x + (v.x + v.w)) / 2
    ensures v.h >= 0 ==> GetCenter(v).y == (v.y + (v.y + v.h)) / 2
  {
  }

  /** getPoint: a point-like Visual is its own reference point, anything else
      is referred to by its center. */
  function GetPoint(v: Visual): (p: Loc)
    ensures IsPoint(v) ==> p == Loc(v.x, v.y)
    ensures !IsPoint(v) ==> p == GetCenter(v)
    ensures v.w == 0 && v.h == 0 ==> p == Loc(v.x, v.y)
    ensures WellSized(v) && IsRectangle(v) ==> ContainsPoint(GetRectangle(v), p.x, p.y)
  {
    if IsPoint(v) then Loc(v.x, v.y) else GetCenter(v)
  }

  /** getSize: the area w * h; zero for a sizeless point, at least 1 for a
      well-sized Visual that is neither a point nor an offset. */
  function GetSize(v: Visual): (n: int)
    ensures v.w == 0 || v.h == 0 ==> n == 0
    ensures WellSized(v) && !IsPoint(v) && !IsOffset(v) ==> n >= v.w && n >= v.h
    ensures WellSized(v) && IsPoint(v) ==> n >= 0
  {
    v.w * v.h
  }

  /** A larger rectangle has the larger area: when one Visual's rectangle
      spans another's, its size is at least the other's. */
  lemma {:induction false} SizeGrowsWithCover(a: Visual, b: Visual)
    requires b.w >= 0 && b.h >= 0
    requires Covers(GetRectangle(a), GetRectangle(b))
    ensures GetSize(b) <= GetSize(a)
  {
    assert b.w <= a.w && b.h <= a.h;
    calc {
      GetSize(b);
    ==
      b.w * b.h;
    <= { MulLeftMono(b.h, b.w, a.w); }
      a.w * b.h;
    <= { MulLeftMono(a.w, b.h, a.h); }
      a.w * a.h;
    }
  }

  /** The pixels of a w x h rectangle counted column by column: w columns
      of h pixels each. */
  function PixelCount(w: nat, h: int): int {
    if w == 0 then 0 else PixelCount(w - 1, h) + h
  }

  /** One more column adds one column's worth of pixels, and one more row
      one row's worth. */
  lemma SizeGrowsByLine(v: Visual)
    ensures GetSize(v.(w := v.w + 1)) == GetSize(v) + v.h
    ensures GetSize(v.(h := v.h + 1)) == GetSize(v) + v.w
  {
  }

  /** For a non-negative width, the size is the pixel count of the
      rectangle. */
  lemma {:induction false} SizeCountsPixels(v: Visual)
    requires v.w >= 0
    ensures GetSize(v) == PixelCount(v.w, v.h)
    decreases v.w
  {
    if v.w > 0 {
      var narrower := v.(w := v.w - 1);
      SizeCountsPixels(narrower);
      SizeGrowsByLine(narrower);
      assert narrower.(w := narrower.w + 1) == v;
    }
  }

  /** Multiplying by a non-negative factor keeps an inequality. */
  lemma MulLeftMono(k: int, m: int, n: int)
    requires k >= 0 && m <= n
    ensures m * k <= n * k && k * m <= k * n
  {
  }

  /** getRegion: a fresh REGION over the same rectangle, clamped to at least
      1 x 1; for a well-sized rectangle-like Visual it is the same rectangle. */
  function GetRegion(v: Visual): (r: Visual)
    ensures IsRegion(r) && WellSized(r)
    ensures r.target.None? && r.offset.None? && r.lastMatch.None?
    ensures r.x == v.x && r.y == v.y
    ensures GetRectangle(r) == Rect(v.x, v.y, Max(v.w, 1), Max(v.h, 1))
    ensures v.w >= 0 && v.h >= 0 ==> Covers(GetRectangle(r), GetRectangle(v))
    ensures WellSized(v) && IsRectangle(v) ==> GetRectangle(r) == GetRectangle(v)
  {
    NewRegion(GetRectangle(v))
  }

  /** The region of a well-sized rectangle-like Visual has the same size. */
  lemma RegionKeepsSize(v: Visual)
    ensures WellSized(v) && IsRectangle(v) ==> GetSize(GetRegion(v)) == GetSize(v)
    ensures v.w >= 1 && v.h >= 1 ==> GetSize(GetRegion(v)) == GetSize(v)
  {
  }
}
